=== FILE: README.md ===
# FunctionalUniverse in Dafny

A Dafny model of the FunctionalUniverse core. The package treats the universe as a composition of state transitions governed by five axioms: functional composition, a minimum duration `dt_min`, a minimum entropy per transition, causal ordering through composability, and an upper bound `c` on the causal composition rate.

The model covers these parts:

- **Constants** (`constants.dfy`): the three positive scalars and the derived maximum composition rate `c / dt_min`.
- **Transition** (`transition.dfy`): an opaque `S -> S` transform with a duration, an optional entropy, a name and a causal order. It has two-phase validation and pairwise composition under the rate bound.
- **Direct-mode universe** (`direct_universe.dfy`): the validated registry with causal-order assignment. It also covers pairwise and chain composition, evolution of a state, and the duration, entropy and rate queries. The central law is that evolving a state through a list equals applying the composed chain, whenever the chain composes.
- **Potential transitions** (`potential_transition.dfy`): candidate sets merged by union and committed through a decision rule.
- **Causal graph** (`causal_graph.dfy`, `acyclicity.dfy`): labelled edges from a pre-state to a post-state. The executable cycle check peels off nodes that have no successor, and it is proved to report exactly the graphs that contain a closed walk.
- **Aggregate/commit universe** (`commit_universe.dfy`): an aggregation space, and a best-effort batch commit into the causal graph.

`scenarios.dfy` restates several of the repository's test scenarios over integer states. The three-step chain ("+1", "*2", "squared") is built from unvalidated transitions. Its results depend only on the transforms and durations, which validation leaves unchanged.

Durations, entropies and rates are Dafny `real`. A Python `None` entropy is `Option.None`. Each raised exception becomes an `Error`. Where the source returns a value, the error is a `Result.Failure`. Where the source only checks (`CausalGraphs.Validate`), or mutates before it raises (`Transitions.Validate`, `DirectUniverse.AddTransition`, `DirectUniverse.CreateTransition`), the error is an `Option<Error>` beside the returned value. `Outcomes.IsValueError` says which of these the source raises as `ValueError`, and that is the only class the batch commit swallows.

The source mutates a transition in place: `validate` resolves its entropy, and `add_transition` assigns its causal order. The model instead returns the transition as it is left. `validate` resolves a missing entropy before its checks run, so the resolved entropy is kept even when a check then fails. `Transitions.Validate` therefore returns the transition together with the optional error.

User transforms and decision rules are function parameters. Candidates in a possibility set are compared by the caller's equality (identity for plain objects), so they are a type parameter `P` with equality, and a `view` function reads the `function`, `duration` and `entropy` attributes of the selected candidate.

As shipped, `functional_universe/universe.py` never imports `CausalGraph`, and `functional_universe/potential_transition.py` never imports `Transition`. The model gives both files the behaviour they evidently intend.

Behaviour of the code worth knowing:
- `aggregate` does not compare the two states. The result keeps the first operand's state.
- `CausalGraph.add_transition` makes no cycle check. Cycles are reported only by the separate `validate`.
- The graph is a simple directed graph. Recording the same (pre, post) pair again replaces that edge's label.
- `PotentialTransition.commit` returns an unvalidated transition.
- A decision rule's own exception propagates out of `commit` unchanged.
- `Universe.compose(t1, None)` formats `t2.name` into its error message, so it fails with an `AttributeError` rather than a `ValueError`. The model reports `NotComposable` and does not count it as a `ValueError`.

## Model

| member | source | states |
|---|---|---|
| Constants.New | functional_universe/constants.py:17-40 | Construction succeeds iff all three scalars are positive. The checks run in source order, so the `dt_min` error wins over the entropy error, which wins over the `c` error. On success the fields read back exactly as supplied. |
| Constants.DefaultConstants | functional_universe/constants.py:17 | Each omitted argument defaults to 1.0. With all three omitted, construction succeeds with `dt_min = minimum_entropy = c = 1.0`. |
| Constants.MaxCompositionRate | functional_universe/constants.py:57-67 | The rate is strictly positive, and rate × `dt_min` = `c`. |
| Constants.MaxRateExample | tests/test_functional_universe.py:50-53 | `dt_min = 2`, `c = 10` give a rate of 5. |
| Transitions.New | functional_universe/transition.py:21-39 | The transform, duration and entropy are stored unchecked, and the causal order starts at 0. A given non-empty name is kept; otherwise the generated name is used. |
| Transitions.SetCausalOrder | functional_universe/transition.py:66-68 | The causal order becomes the given value. Every other field is unchanged. |
| Transitions.Validate | functional_universe/transition.py:155-183 | A missing entropy becomes exactly the minimum entropy, even when the duration check then fails. Validation fails iff duration < `dt_min` or the resolved entropy < minimum; both minima are inclusive. The duration error takes precedence. The transform, duration, name and causal order are untouched. |
| Transitions.ValidateMeansAxioms | functional_universe/transition.py:155-183 | Validation succeeds exactly when the transition it leaves behind satisfies Axioms 2 and 3. |
| Transitions.ValidateIdempotent | functional_universe/transition.py:167-183 | Re-validating against the same constants changes nothing and gives the same verdict. |
| Transitions.Compose | functional_universe/transition.py:82-135 | Composition fails iff d1 + d2 < 2 / max rate, and the error is the rate violation. On success, applying the composite is applying `self` then `other`. The duration is the sum. The entropy is the sum when both are present, otherwise absent. The name is `a >> b`. The causal order is one more than the larger operand's, so it is strictly greater than both. |
| Transitions.ComposeRateBound | functional_universe/transition.py:99-112 | A pair composes iff (d1 + d2) × max rate ≥ 2. |
| DirectUniverse.NewUniverse | functional_universe/universe-bak.py:24-35 | A new universe has an empty registry and no current state. Omitted constants become the defaults (1, 1, 1). |
| DirectUniverse.AddTransition | functional_universe/universe-bak.py:47-69 | The transition is validated first. On failure the universe is unchanged and the error is validation's. On success the registry grows by exactly this transition at the end, and its causal order is the new length. The entropy is resolved in both cases. |
| DirectUniverse.AddTransitionPreservesRegistry | functional_universe/universe-bak.py:62-67 | Adding keeps the registry invariant: every entry satisfies the axioms and has its 1-based position as causal order. |
| DirectUniverse.CreateTransition | functional_universe/universe-bak.py:71-91 | A transition is constructed and then added. This succeeds iff duration ≥ `dt_min` and any given entropy ≥ the minimum. The registered transition keeps the supplied transform, duration and name, and has its entropy resolved. |
| DirectUniverse.Compose | functional_universe/universe-bak.py:93-112 | A missing second operand is rejected. Otherwise the result is exactly the pairwise composition under the universe's constants. |
| DirectUniverse.ComposeChain | functional_universe/universe-bak.py:114-138 | An empty chain fails with `EmptyChain`. A singleton chain returns its element unchanged. When a longer chain composes is stated by `DirectUniverse.FoldComposeSucceeds`. |
| DirectUniverse.FoldComposeSucceeds | functional_universe/universe-bak.py:125-136 | Folding the rest of a chain into the accumulator succeeds iff, at every step, the accumulator's duration plus that of the prefix so far reaches the two-transition minimum `2 / max_rate`. |
| DirectUniverse.ValidatedChainComposes | functional_universe/universe-bak.py:125-136 | With `c >= 1`, every non-empty chain of transitions that satisfy the axioms composes. |
| DirectUniverse.Evolve | functional_universe/universe-bak.py:140-161 | Returns the left fold of `apply` over the list, starting from the initial state; an empty list returns that state. Whenever `compose_chain` succeeds on the list, the result equals the composed chain applied to the initial state. The current state is left on the result, and the constants and registry are untouched. |
| DirectUniverse.TotalEntropy | functional_universe/universe-bak.py:175-199 | Fails, with the unresolved-entropy error, iff some transition's entropy is absent. An empty list gives 0, and a single transition gives its own entropy. |
| DirectUniverse.TotalEntropyAppend | functional_universe/universe-bak.py:193-194 | The total entropy of a concatenation exists iff both parts' totals exist, and it is then their sum. |
| DirectUniverse.IsCausalRateValid | functional_universe/universe-bak.py:201-226 | True for the empty list. In general, true iff total duration × max rate ≥ count. |
| DirectUniverse.SetState | functional_universe/universe-bak.py:228-234 | After `set_state(s)`, `get_state` (`DirectUniverse.GetState`) reads back `s`. The constants and registry are unchanged. |
| DirectUniverse.TotalDuration | functional_universe/universe-bak.py:163-173 | An empty list lasts 0, and a single transition lasts its own duration. |
| DirectUniverse.TotalDurationDominates | functional_universe/universe-bak.py:163-173 | When no duration is negative, the total is non-negative and at least every member's duration. |
| DirectUniverse.TotalDurationAppend | functional_universe/universe-bak.py:163-173 | The total duration of a concatenation is the sum of the two totals. |
| DirectUniverse.TotalDurationLowerBound | functional_universe/universe-bak.py:163-173 | A list of validated transitions lasts at least count × `dt_min`. |
| DirectUniverse.FoldComposeRuns | functional_universe/universe-bak.py:133-138 | A successful left fold of compositions from an accumulator applies the accumulator and then every member of the rest, in order. |
| DirectUniverse.FoldComposeLaw | functional_universe/universe-bak.py:133-138 | A successful left fold of compositions lasts the accumulator's duration plus the total of the rest. It carries the summed entropy exactly when every entropy is present, and no entropy otherwise. Its causal order exceeds every member's and is at least the accumulator's plus the number of members. |
| DirectUniverse.EvolveMatchesChain | functional_universe/universe-bak.py:114-161 | When `compose_chain(ts)` succeeds, the list is non-empty and the chain applied to `s` equals the state `evolve(s, ts)` reaches. |
| DirectUniverse.ChainTotals | functional_universe/universe-bak.py:114-199 | When `compose_chain(ts)` succeeds, the chain's duration equals `total_evolution_duration(ts)`. Its entropy equals `total_entropy(ts)`, and is absent exactly when `total_entropy` fails. |
| DirectUniverse.ChainIsCausallyLater | functional_universe/universe-bak.py:133-138 | A composed chain of two or more comes strictly after each member in causal order, and at least (length − 1) after the first. |
| DirectUniverse.FoldComposeFailure | functional_universe/universe-bak.py:133-138 | The fold in a chain of two or more can only fail on the rate bound. |
| DirectUniverse.ChainOfTwo | functional_universe/universe-bak.py:127-138 | Composing a chain of two is composing the pair. |
| Potentials.Aggregate | functional_universe/potential_transition.py:15-25 | The result keeps the first operand's state, and its candidates are the union of both sets. |
| Potentials.AggregateCommutes | functional_universe/potential_transition.py:24 | The merged candidate set does not depend on operand order. |
| Potentials.AggregateAssociates | functional_universe/potential_transition.py:24 | Merging is associative. |
| Potentials.AggregateIdempotent | functional_universe/potential_transition.py:24 | Merging a potential with itself gives it back. |
| Potentials.AggregateIgnoresOtherState | functional_universe/potential_transition.py:24-25 | The second operand's state never affects the result; there is no mismatch check. |
| Potentials.Commit | functional_universe/potential_transition.py:27-37 | A decision-rule failure propagates unchanged. Otherwise the result is a transition with the chosen candidate's transform, duration and entropy, causal order 0 and the generated name. |
| CausalGraphs.Empty | functional_universe/causal_graph.py:4-5 | A new graph has no edges. |
| CausalGraphs.EmptyIsAcyclic | functional_universe/causal_graph.py:4-5 | A new graph validates. |
| CausalGraphs.AddTransition | functional_universe/causal_graph.py:7-17 | Returns `t.apply(pre)`. Afterwards the edge (pre, post) exists and is labelled `t`, replacing any earlier label. The edge set grows by at most that pair, and every other edge keeps its label. |
| CausalGraphs.Validate | functional_universe/causal_graph.py:19-21 | Reports a causal inconsistency iff the edge relation contains a cycle (a closed walk). |
| CausalGraphs.FixedPointMakesCycle | functional_universe/causal_graph.py:7-17 | No cycle check is made on insertion: a transform that fixes its pre-state adds a self-loop, and the graph then fails validation. |
| CausalGraphs.AddTransitionKeepsCycles | functional_universe/causal_graph.py:7-21 | Insertion never removes an edge, so a graph that fails validation still fails after an insertion. |
| Acyclicity.CyclicIffHasCycle | functional_universe/causal_graph.py:19-21 | The executable check, which peels off nodes without successors, is non-empty exactly when a closed walk exists. |
| CommitUniverse.NewUniverse | functional_universe/universe.py:2-5 | A new universe has the given constants, an empty causal graph and an empty aggregation space. |
| CommitUniverse.Aggregate | functional_universe/universe.py:7-11 | The potential is appended at the end. Earlier entries, the graph and the constants are preserved. |
| CommitUniverse.Commit | functional_universe/universe.py:13-26 | The batch returns normally iff every failing commitment is a `ValueError`. It then returns, in aggregation order, exactly the commitments that succeeded; there are no more of them than pending entries. The aggregation space is cleared, and each returned transition has an edge from the given state in the graph. Any other error propagates: the aggregation space is kept, and the graph keeps the edges recorded before the failing entry. |
| CommitUniverse.SurvivorsAreCommitments | functional_universe/universe.py:17-26 | Every committed transition is the commitment of some pending entry, and there are at most as many as entries. When every commitment succeeds, every entry is kept. |
| CommitUniverse.SucceedingSnoc | functional_universe/universe.py:17-26 | The last pending entry adds its own index to the succeeding entries exactly when its commitment succeeds. |
| CommitUniverse.SurvivorsCount | functional_universe/universe.py:17-26 | There are exactly as many committed transitions as pending entries whose commitment succeeds. |
| CommitUniverse.RecordAllAddsEdges | functional_universe/universe.py:21-22 | After recording a batch from `state`, there is an edge from `state` to each transition's result. |
| CommitUniverse.RecordAllOnlyThose | functional_universe/universe.py:21-22 | The edges from `state` to the batch's results are the only edges recording adds. |
| CommitUniverse.RecordAllKeepsOthers | functional_universe/universe.py:21-22 | Edges from other states stay in the graph with their labels. |
| Scenarios.ComposeScenario | tests/test_functional_universe.py:99-112 | "+1" composed with "*2" takes 5 to 12, has duration 2, entropy 1 and name "Inc >> Double". |
| Scenarios.ChainScenarioComposes | tests/test_functional_universe.py:190-198 | The three-transition chain of the tests composes under dt_min = 1, c = 10. |
| Scenarios.EvolveScenario | tests/test_functional_universe.py:190-198 | Evolving 5 through "+1", "*2", "squared" reaches 144. |
| Scenarios.ChainScenario | tests/test_functional_universe.py:190-198 | The composed chain applied to 5 also gives 144. |
| Scenarios.ValidateScenarios | tests/test_functional_universe.py:79-97 | Duration 0.5 fails on duration, entropy 0.1 fails on entropy, a missing entropy resolves to 0.5, and the exact minima pass. |
| Scenarios.RateScenario | tests/test_functional_universe.py:249-258 | Ten transitions of duration 1 respect the rate bound of 10. |
| Scenarios.EvolveTwoScenario | tests/test_functional_universe.py:211-217 | Evolving 5 through "+10" and "*3" reaches 45. |
| Scenarios.TotalDurationScenario | tests/test_functional_universe.py:219-226 | Durations 1.5, 2.0 and 1.0 total 4.5. |
| Scenarios.TotalEntropyScenario | tests/test_functional_universe.py:228-235 | Entropies 1.0, 2.0 and 1.5 total 4.5. |
| Scenarios.RateOfThreeScenario | tests/test_functional_universe.py:237-247 | Three transitions of duration 1 respect the rate bound. |
| Scenarios.WorkflowCreates | tests/test_functional_universe.py:275-303 | With dt_min 0.5, minimum entropy 1 and c 20, both transitions are created with causal orders 1 and 2, and the pair is rate-valid. |
| Scenarios.WorkflowScenario | tests/test_functional_universe.py:275-303 | Composing "Increment" and "Double" maps 5 to 12, lasts 1.5, carries entropy 2.5 and has causal order 3. |

## Left out

- Floating point: durations, entropies and rates are exact reals. Rounding in `2.0 / max_rate` and in sums is not modelled.
- Object identity and aliasing: transitions are values. `compose_chain([t])` returning `t` itself is modelled as value equality.
- DirectUniverse.AddTransitionPreservesRegistry: holds only because transitions are values. If the same Python object is added twice, the registry holds `[t, t]`, and both entries show the last causal order assigned (2 and 2). In the model, each entry keeps the order it was given.
- Determinism: transforms and decision rules are pure functions, so equal inputs give equal results. CommitUniverse.SurvivorsAreCommitments equates each survivor with the commitment of a pending entry, which a randomised Python decision rule would not satisfy.
- The default name `Transition_{id(self)}`: callers supply the generated name as a parameter. Every fresh transition in one batch commit gets the same placeholder.
- `__repr__`, the `>>` operator closure, and the exception message texts.
- The unused `_causal_chains` list of the direct-mode universe.
- `Universe.evolve` in `functional_universe/universe.py`: it is broken as written. It passes an Ellipsis to `aggregate`, re-adds edges already recorded, and indexes the last element of a possibly empty list.
- networkx: the `DiGraph` is an edge map plus a cycle predicate. The library's refusal of `None` as a node, which raises a `ValueError`, is not modelled.
- CommitUniverse.Commit: graph insertion never fails in the model, because transforms are total functions and every state is an admissible node. So an entry is dropped only when its decision rule raises a `ValueError`, not also when insertion raises one.
- DirectUniverse.GetState carries no contract of its own: it reads the cursor, and `DirectUniverse.SetState` and `DirectUniverse.Evolve` state what it reads afterwards.
- Transitions.Apply and Transitions.IsComposableWith carry no contract of their own. Applying is the transform itself, which `Transitions.Compose` and `DirectUniverse.EvolveMatchesChain` use. Composability (false only for a missing operand) is what `DirectUniverse.Compose` states.
- Immutability of the constants: there is nothing to prove, because the constants are an immutable datatype.
- The example scripts, packaging and package re-exports.
- Concurrency: the source has none.

=== FILE: acyclicity.dfy ===
/** Cycle detection on a finite edge relation.

    A cycle is a closed walk. The executable check repeatedly discards the
    nodes that have no successor among the remaining nodes; the relation is
    acyclic exactly when nothing survives. */
module Acyclicity {

  /** Step `i` of the closed walk `w` follows an edge of `E`; the last node
      steps back to the first. */
  ghost predicate ClosingStep<S>(E: set<(S, S)>, w: seq<S>, i: int) {
    0 <= i < |w| && (w[i], w[(i + 1) % |w|]) in E
  }

  ghost predicate IsClosedWalk<S>(E: set<(S, S)>, w: seq<S>) {
    |w| >= 1 && forall i :: 0 <= i < |w| ==> ClosingStep(E, w, i)
  }

  ghost predicate HasCycle<S(!new)>(E: set<(S, S)>) {
    exists w :: IsClosedWalk(E, w)
  }

  /** Step `i` of the open walk `w` follows an edge of `E`. */
  ghost predicate Step<S>(E: set<(S, S)>, w: seq<S>, i: int) {
    0 <= i < |w| - 1 && (w[i], w[i + 1]) in E
  }

  predicate HasSuccessorIn<S(==)>(n: S, N: set<S>, E: set<(S, S)>) {
    exists m :: m in N && (n, m) in E
  }

  /** Every node of `C` has a successor in `C`. */
  ghost predicate SuccessorClosed<S>(C: set<S>, E: set<(S, S)>) {
    forall x :: x in C ==> HasSuccessorIn(x, C, E)
  }

  /** The nodes that start some edge. */
  function Sources<S(==)>(E: set<(S, S)>): (r: set<S>)
    ensures forall e :: e in E ==> e.0 in r
  {
    set e | e in E :: e.0
  }

  /** One peeling round: the nodes of `N` with a successor in `N`. */
  function Keep<S(==)>(N: set<S>, E: set<(S, S)>): (r: set<S>)
    ensures r <= N
    ensures forall n :: n in N && HasSuccessorIn(n, N, E) ==> n in r
    ensures forall n :: n in r ==> HasSuccessorIn(n, N, E)
  {
    set n | n in N && HasSuccessorIn(n, N, E)
  }

  lemma {:induction false} SubsetCardinality<T>(A: set<T>, B: set<T>)
    requires A <= B
    ensures |A| <= |B|
    decreases |A|
  {
    if A != {} {
      var x :| x in A;
      assert A == (A - {x}) + {x};
      assert B == (B - {x}) + {x};
      SubsetCardinality(A - {x}, B - {x});
    }
  }

  lemma ProperSubsetCardinality<T>(A: set<T>, B: set<T>)
    requires A <= B && A != B
    ensures |A| < |B|
  {
    var x :| x in B && x !in A;
    assert B == (B - {x}) + {x};
    SubsetCardinality(A, B - {x});
  }

  /** Discard nodes without a successor in `N` until none is left to discard. */
  function Peel<S(==)>(N: set<S>, E: set<(S, S)>): (core: set<S>)
    ensures core <= N
    decreases |N|
  {
    var N' := Keep(N, E);
    if N' == N then N else
      ProperSubsetCardinality(N', N);
      Peel(N', E)
  }

  /** The executable cycle check. */
  predicate Cyclic<S(==)>(E: set<(S, S)>) {
    Peel(Sources(E), E) != {}
  }

  lemma {:induction false} PeelIsClosed<S>(N: set<S>, E: set<(S, S)>)
    ensures SuccessorClosed(Peel(N, E), E)
    decreases |N|
  {
    var N' := Keep(N, E);
    if N' != N {
      ProperSubsetCardinality(N', N);
      PeelIsClosed(N', E);
    }
  }

  lemma {:induction false} ClosedSurvivesPeel<S>(C: set<S>, N: set<S>, E: set<(S, S)>)
    requires C <= N && SuccessorClosed(C, E)
    ensures C <= Peel(N, E)
    decreases |N|
  {
    var N' := Keep(N, E);
    forall x | x in C
      ensures x in N'
    {
      var y :| y in C && (x, y) in E;
      assert HasSuccessorIn(x, N, E);
    }
    if N' != N {
      ProperSubsetCardinality(N', N);
      ClosedSurvivesPeel(C, N', E);
    }
  }

  /** The nodes of a closed walk form a successor-closed set of sources. */
  lemma WalkNodesClosed<S>(E: set<(S, S)>, w: seq<S>)
    requires IsClosedWalk(E, w)
    ensures SuccessorClosed(set i | 0 <= i < |w| :: w[i], E)
    ensures (set i | 0 <= i < |w| :: w[i]) <= Sources(E)
  {
    var C := set i | 0 <= i < |w| :: w[i];
    forall x | x in C
      ensures HasSuccessorIn(x, C, E)
      ensures x in Sources(E)
    {
      var i :| 0 <= i < |w| && w[i] == x;
      assert ClosingStep(E, w, i);
      var j := (i + 1) % |w|;
      assert w[j] in C;
      assert (x, w[j]) in E;
    }
  }

  /** A walk of `n` steps inside a successor-closed set. */
  ghost function Walk<S>(x: S, C: set<S>, E: set<(S, S)>, n: nat): (w: seq<S>)
    requires x in C && SuccessorClosed(C, E)
    ensures |w| == n + 1 && w[0] == x
    ensures forall i :: 0 <= i < |w| ==> w[i] in C
    ensures forall i :: 0 <= i < n ==> Step(E, w, i)
  {
    if n == 0 then [x]
    else
      assert HasSuccessorIn(x, C, E);
      var y :| y in C && (x, y) in E;
      var rest := Walk(y, C, E, n - 1);
      var w := [x] + rest;
      assert forall i :: 0 < i < n ==> Step(E, rest, i - 1) ==> Step(E, w, i);
      w
  }

  /** A sequence longer than the set its elements come from repeats one. */
  lemma {:induction false} Pigeonhole<S>(w: seq<S>, C: set<S>)
    requires forall i :: 0 <= i < |w| ==> w[i] in C
    requires |w| > |C|
    ensures exists i, j :: 0 <= i < j < |w| && w[i] == w[j]
    decreases |w|
  {
    if !(exists j :: 0 < j < |w| && w[j] == w[0]) {
      var C' := C - {w[0]};
      assert C == C' + {w[0]};
      var w' := w[1..];
      forall i | 0 <= i < |w'|
        ensures w'[i] in C'
      {
        assert w'[i] == w[i + 1];
      }
      Pigeonhole(w', C');
      var i, j :| 0 <= i < j < |w'| && w'[i] == w'[j];
      assert w[i + 1] == w[j + 1];
    }
  }

  /** The stretch of an open walk between two visits of the same node is a
      closed walk. */
  lemma RepeatCloses<S>(E: set<(S, S)>, w: seq<S>, i: int, j: int)
    requires 0 <= i < j < |w| && w[i] == w[j]
    requires forall k :: 0 <= k < |w| - 1 ==> Step(E, w, k)
    ensures IsClosedWalk(E, w[i..j])
  {
    var c := w[i..j];
    forall k | 0 <= k < |c|
      ensures ClosingStep(E, c, k)
    {
      assert Step(E, w, i + k);
      if k + 1 < |c| {
        assert (k + 1) % |c| == k + 1;
      } else {
        assert (k + 1) % |c| == 0;
      }
    }
  }

  /** A non-empty successor-closed set contains a closed walk. */
  lemma ClosedHasCycle<S(!new)>(C: set<S>, E: set<(S, S)>)
    requires C != {} && SuccessorClosed(C, E)
    ensures HasCycle(E)
  {
    var x :| x in C;
    var w := Walk(x, C, E, |C|);
    Pigeonhole(w, C);
    var i, j :| 0 <= i < j < |w| && w[i] == w[j];
    RepeatCloses(E, w, i, j);
  }

  /** The executable check decides the existence of a closed walk. */
  lemma CyclicIffHasCycle<S(!new)>(E: set<(S, S)>)
    ensures Cyclic(E) <==> HasCycle(E)
  {
    if HasCycle(E) {
      var w :| IsClosedWalk(E, w);
      WalkNodesClosed(E, w);
      ClosedSurvivesPeel(set i | 0 <= i < |w| :: w[i], Sources(E), E);
      assert w[0] in Peel(Sources(E), E);
    }
    if Cyclic(E) {
      PeelIsClosed(Sources(E), E);
      ClosedHasCycle(Peel(Sources(E), E), E);
    }
  }
}

=== FILE: causal_graph.dfy ===
/** The causal graph: committed transitions recorded as labelled edges from a
    pre-state to the state the transition produces from it. The edge map
    stands for a simple directed graph: one label per (pre, post) pair. */
module CausalGraphs {
  import opened Outcomes
  import opened Transitions
  import opened Acyclicity

  datatype CausalGraph<!S(==)> = CausalGraph(edges: map<(S, S), Transition<S>>)

  function EdgeSet<S(==)>(g: CausalGraph<S>): set<(S, S)> {
    g.edges.Keys
  }

  /** A new graph has no edges. */
  function Empty<S(==)>(): (g: CausalGraph<S>)
    ensures EdgeSet(g) == {}
  {
    CausalGraph(map[])
  }

  /** What `add_transition` returns (the post-state) and leaves behind. */
  datatype Recorded<!S(==)> = Recorded(graph: CausalGraph<S>, post: S)

  /** `add_transition`: apply the transition to the pre-state and label the
      edge to the result with it, replacing an earlier label of the same
      pair. No cycle check is made. */
  function AddTransition<S(==)>(g: CausalGraph<S>, pre: S, t: Transition<S>): (r: Recorded<S>)
    ensures r.post == Apply(t, pre)
    ensures (pre, r.post) in r.graph.edges && r.graph.edges[(pre, r.post)] == t
    ensures EdgeSet(r.graph) == EdgeSet(g) + {(pre, r.post)}
    ensures forall e :: e in g.edges && e != (pre, r.post) ==> r.graph.edges[e] == g.edges[e]
  {
    var post := Apply(t, pre);
    Recorded(CausalGraph(g.edges[(pre, post) := t]), post)
  }

  /** `validate`: reports an inconsistency exactly when the edges contain a
      cycle; being a function of the graph, it leaves the graph as it is. */
  function Validate<S(==,!new)>(g: CausalGraph<S>): (r: Option<Error>)
    ensures r.Some? <==> HasCycle(EdgeSet(g))
    ensures r.Some? ==> r.value == CausalInconsistency
  {
    CyclicIffHasCycle(EdgeSet(g));
    if Cyclic(EdgeSet(g)) then Some(CausalInconsistency) else None
  }

  lemma EmptyIsAcyclic<S(!new)>()
    ensures Validate(Empty<S>()) == None
  {
  }

  /** Recording a transition that fixes its pre-state adds a self-loop, so
      the graph no longer validates. */
  lemma FixedPointMakesCycle<S(!new)>(g: CausalGraph<S>, p: S, t: Transition<S>)
    requires Apply(t, p) == p
    ensures Validate(AddTransition(g, p, t).graph) == Some(CausalInconsistency)
  {
    var E := EdgeSet(AddTransition(g, p, t).graph);
    assert ClosingStep(E, [p], 0);
    assert IsClosedWalk(E, [p]);
  }

  /** Edges are only ever added, so a cycle once present stays present. */
  lemma AddTransitionKeepsCycles<S(!new)>(g: CausalGraph<S>, p: S, t: Transition<S>)
    requires Validate(g).Some?
    ensures Validate(AddTransition(g, p, t).graph).Some?
  {
    var E := EdgeSet(g);
    var E' := EdgeSet(AddTransition(g, p, t).graph);
    var w :| IsClosedWalk(E, w);
    assert forall i :: 0 <= i < |w| ==> ClosingStep(E, w, i) ==> ClosingStep(E', w, i);
    assert IsClosedWalk(E', w);
  }
}

=== FILE: commit_universe.dfy ===
/** The aggregate/commit universe: pending potential transitions are
    collected in an aggregation space and committed as one best-effort batch,
    each surviving commitment being recorded in the causal graph. */
module CommitUniverse {
  import opened Outcomes
  import opened Constants
  import opened Transitions
  import opened Potentials
  import opened CausalGraphs

  datatype Universe<!S(==), P(==)> = Universe(
    constants: ValidConstants,
    graph: CausalGraph<S>,
    aggregationSpace: seq<PotentialTransition<S, P>>)

  /** A new universe: the given constants, an empty graph, nothing pending. */
  function NewUniverse<S(==), P(==)>(k: ValidConstants): (u: Universe<S, P>)
    ensures u.constants == k
    ensures EdgeSet(u.graph) == {}
    ensures u.aggregationSpace == []
  {
    Universe(k, Empty(), [])
  }

  /** `aggregate`: the potential joins the end of the aggregation space;
      earlier entries and the graph stay as they were. */
  function Aggregate<S(==), P(==)>(u: Universe<S, P>, pt: PotentialTransition<S, P>): (r: Universe<S, P>)
    ensures |r.aggregationSpace| == |u.aggregationSpace| + 1
    ensures r.aggregationSpace[..|u.aggregationSpace|] == u.aggregationSpace
    ensures r.aggregationSpace[|u.aggregationSpace|] == pt
    ensures r.graph == u.graph && r.constants == u.constants
  {
    u.(aggregationSpace := u.aggregationSpace + [pt])
  }

  /** No pending entry's commitment fails with an error the batch lets
      through; only `ValueError`s are swallowed. */
  predicate AllSwallowable<S, P(==)>(pending: seq<PotentialTransition<S, P>>, rule: set<P> -> Result<P>,
                                    view: P -> Possibility<S>, generated: string) {
    forall i :: 0 <= i < |pending| && Potentials.Commit(pending[i], rule, view, generated).Failure? ==>
      IsValueError(Potentials.Commit(pending[i], rule, view, generated).error)
  }

  /** The transitions the pending entries commit to, in aggregation order,
      leaving out the entries whose commitment failed. */
  function Survivors<S, P(==)>(pending: seq<PotentialTransition<S, P>>, rule: set<P> -> Result<P>,
                               view: P -> Possibility<S>, generated: string): seq<Transition<S>>
    decreases |pending|
  {
    if pending == [] then []
    else
      var earlier := Survivors(pending[..|pending| - 1], rule, view, generated);
      match Potentials.Commit(pending[|pending| - 1], rule, view, generated)
      case Success(t) => earlier + [t]
      case Failure(_) => earlier
  }

  /** The graph after recording each transition, in order, from `state`. */
  function RecordAll<S(==)>(g: CausalGraph<S>, state: S, ts: seq<Transition<S>>): CausalGraph<S>
    decreases |ts|
  {
    if ts == [] then g
    else CausalGraphs.AddTransition(RecordAll(g, state, ts[..|ts| - 1]), state, ts[|ts| - 1]).graph
  }

  /** Every survivor is the commitment of some pending entry, and there are
      no more survivors than entries; when every commitment succeeds, each
      entry survives. */
  lemma {:induction false} SurvivorsAreCommitments<S, P>(pending: seq<PotentialTransition<S, P>>,
      rule: set<P> -> Result<P>, view: P -> Possibility<S>, generated: string)
    ensures |Survivors(pending, rule, view, generated)| <= |pending|
    ensures forall j :: 0 <= j < |Survivors(pending, rule, view, generated)| ==>
      exists i :: 0 <= i < |pending| &&
        Potentials.Commit(pending[i], rule, view, generated) == Success(Survivors(pending, rule, view, generated)[j])
    ensures (forall i :: 0 <= i < |pending| ==> Potentials.Commit(pending[i], rule, view, generated).Success?) ==>
      |Survivors(pending, rule, view, generated)| == |pending|
    decreases |pending|
  {
    if pending != [] {
      var n := |pending| - 1;
      var init := pending[..n];
      SurvivorsAreCommitments(init, rule, view, generated);
      var earlier := Survivors(init, rule, view, generated);
      var all := Survivors(pending, rule, view, generated);
      forall j | 0 <= j < |all|
        ensures exists i :: 0 <= i < |pending| &&
                            Potentials.Commit(pending[i], rule, view, generated) == Success(all[j])
      {
        if j < |earlier| {
          var i :| 0 <= i < |init| && Potentials.Commit(init[i], rule, view, generated) == Success(earlier[j]);
          assert pending[i] == init[i];
        } else {
          assert Potentials.Commit(pending[n], rule, view, generated) == Success(all[j]);
        }
      }
      if forall i :: 0 <= i < |pending| ==> Potentials.Commit(pending[i], rule, view, generated).Success? {
        assert forall i :: 0 <= i < |init| ==> init[i] == pending[i];
      }
    }
  }

  /** The indices of the entries whose commitment succeeds: the last entry
      adds its own index exactly when its commitment succeeds. */
  lemma SucceedingSnoc<S, P>(pending: seq<PotentialTransition<S, P>>,
      rule: set<P> -> Result<P>, view: P -> Possibility<S>, generated: string)
    requires pending != []
    ensures var n := |pending| - 1;
      var all := set i | 0 <= i < |pending| && Potentials.Commit(pending[i], rule, view, generated).Success?;
      var before := set i | 0 <= i < n && Potentials.Commit(pending[..n][i], rule, view, generated).Success?;
      && n !in before
      && all == if Potentials.Commit(pending[n], rule, view, generated).Success? then before + {n} else before
  {
    var n := |pending| - 1;
    assert forall i :: 0 <= i < n ==> pending[..n][i] == pending[i];
  }

  /** There are exactly as many survivors as pending entries whose
      commitment succeeds. */
  lemma {:induction false} SurvivorsCount<S, P>(pending: seq<PotentialTransition<S, P>>,
      rule: set<P> -> Result<P>, view: P -> Possibility<S>, generated: string)
    ensures |Survivors(pending, rule, view, generated)|
         == |set i | 0 <= i < |pending| && Potentials.Commit(pending[i], rule, view, generated).Success?|
    decreases |pending|
  {
    if pending != [] {
      var n := |pending| - 1;
      SurvivorsCount(pending[..n], rule, view, generated);
      SucceedingSnoc(pending, rule, view, generated);
    }
  }

  /** After recording, there is an edge from `state` to the result of every
      recorded transition. */
  lemma {:induction false} RecordAllAddsEdges<S>(g: CausalGraph<S>, state: S, ts: seq<Transition<S>>)
    ensures forall i :: 0 <= i < |ts| ==> (state, Apply(ts[i], state)) in RecordAll(g, state, ts).edges
    decreases |ts|
  {
    if ts != [] {
      var n := |ts| - 1;
      var init := ts[..n];
      RecordAllAddsEdges(g, state, init);
      assert forall i :: 0 <= i < n ==> ts[i] == init[i];
    }
  }

  /** The edges a batch records from `state`: the batch's last transition
      contributes one more than the batch without it. */
  lemma TargetsSnoc<S>(state: S, init: seq<Transition<S>>, ts: seq<Transition<S>>)
    requires |ts| == |init| + 1
    requires forall i :: 0 <= i < |init| ==> init[i] == ts[i]
    ensures (set i | 0 <= i < |ts| :: (state, Apply(ts[i], state)))
         == (set i | 0 <= i < |init| :: (state, Apply(init[i], state))) + {(state, Apply(ts[|init|], state))}
  {
  }

  /** Recording adds exactly the edges from `state` to the results of the
      recorded transitions and no others. */
  lemma {:induction false} RecordAllOnlyThose<S>(g: CausalGraph<S>, state: S, ts: seq<Transition<S>>)
    ensures EdgeSet(RecordAll(g, state, ts)) == EdgeSet(g) + set i | 0 <= i < |ts| :: (state, Apply(ts[i], state))
    decreases |ts|
  {
    if ts != [] {
      var n := |ts| - 1;
      var init := ts[..n];
      var g' := RecordAll(g, state, init);
      RecordAllOnlyThose(g, state, init);
      assert EdgeSet(RecordAll(g, state, ts)) == EdgeSet(g') + {(state, Apply(ts[n], state))};
      TargetsSnoc(state, init, ts);
    }
  }

  /** Recording from `state` leaves the labels of edges from other states
      alone. */
  lemma {:induction false} RecordAllKeepsOthers<S>(g: CausalGraph<S>, state: S, ts: seq<Transition<S>>)
    ensures forall e :: e in g.edges && e.0 != state ==>
      e in RecordAll(g, state, ts).edges && RecordAll(g, state, ts).edges[e] == g.edges[e]
    decreases |ts|
  {
    if ts != [] {
      RecordAllKeepsOthers(g, state, ts[..|ts| - 1]);
    }
  }

  /** Taking one more pending entry: it is kept exactly when its commitment
      succeeds, and the batch stays swallowable exactly when that entry's
      failure, if any, is a `ValueError`. */
  lemma PrefixStep<S, P>(pending: seq<PotentialTransition<S, P>>, i: nat,
      rule: set<P> -> Result<P>, view: P -> Possibility<S>, generated: string)
    requires i < |pending|
    ensures var c := Potentials.Commit(pending[i], rule, view, generated);
      && Survivors(pending[..i + 1], rule, view, generated)
         == (if c.Success? then Survivors(pending[..i], rule, view, generated) + [c.value]
             else Survivors(pending[..i], rule, view, generated))
      && (AllSwallowable(pending[..i + 1], rule, view, generated)
          <==> AllSwallowable(pending[..i], rule, view, generated) && (c.Failure? ==> IsValueError(c.error)))
  {
    assert pending[..i + 1][..i] == pending[..i];
    assert pending[..i + 1][i] == pending[i];
  }

  /** Recording one more transition is one more `add_transition`. */
  lemma RecordStep<S>(g: CausalGraph<S>, state: S, ts: seq<Transition<S>>, t: Transition<S>)
    ensures RecordAll(g, state, ts + [t]) == CausalGraphs.AddTransition(RecordAll(g, state, ts), state, t).graph
  {
    assert (ts + [t])[..|ts|] == ts;
  }

  /** `commit`: commit every pending entry in order; an entry whose commitment
      raises a `ValueError` is dropped, any other error aborts the batch
      (earlier edges stay recorded and the aggregation space is kept);
      otherwise the surviving transitions are recorded from `state`, the
      aggregation space is cleared and the survivors are returned. */
  method Commit<S(==), P(==)>(u: Universe<S, P>, state: S, rule: set<P> -> Result<P>,
                              view: P -> Possibility<S>, generated: string)
    returns (u': Universe<S, P>, r: Result<seq<Transition<S>>>)
    ensures u'.constants == u.constants
    ensures r.Success? <==> AllSwallowable(u.aggregationSpace, rule, view, generated)
    ensures r.Success? ==>
      && u'.aggregationSpace == []
      && r.value == Survivors(u.aggregationSpace, rule, view, generated)
      && |r.value| <= |u.aggregationSpace|
      && u'.graph == RecordAll(u.graph, state, r.value)
      && (forall i :: 0 <= i < |r.value| ==> (state, Apply(r.value[i], state)) in u'.graph.edges)
    ensures r.Failure? ==>
      && !IsValueError(r.error)
      && u'.aggregationSpace == u.aggregationSpace
      && exists i :: 0 <= i < |u.aggregationSpace|
           && Potentials.Commit(u.aggregationSpace[i], rule, view, generated) == Failure(r.error)
           && AllSwallowable(u.aggregationSpace[..i], rule, view, generated)
           && u'.graph == RecordAll(u.graph, state, Survivors(u.aggregationSpace[..i], rule, view, generated))
  {
    var pending := u.aggregationSpace;
    var g := u.graph;
    var committed := [];
    var i := 0;
    while i < |pending|
      invariant 0 <= i <= |pending|
      invariant AllSwallowable(pending[..i], rule, view, generated)
      invariant committed == Survivors(pending[..i], rule, view, generated)
      invariant g == RecordAll(u.graph, state, committed)
    {
      var c := Potentials.Commit(pending[i], rule, view, generated);
      PrefixStep(pending, i, rule, view, generated);
      if c.Failure? {
        if !IsValueError(c.error) {
          u' := u.(graph := g);
          r := Failure(c.error);
          return;
        }
      } else {
        RecordStep(u.graph, state, committed, c.value);
        g := CausalGraphs.AddTransition(g, state, c.value).graph;
        committed := committed + [c.value];
      }
      i := i + 1;
    }
    assert pending[..i] == pending;
    SurvivorsAreCommitments(pending, rule, view, generated);
    RecordAllAddsEdges(u.graph, state, committed);
    u' := u.(graph := g, aggregationSpace := []);
    r := Success(committed);
  }
}

=== FILE: constants.dfy ===
/** The universal constants: minimum duration, minimum entropy and the bound
    on causal composition, with the derived maximum composition rate. */
module Constants {
  import opened Outcomes

  /** The three scalars as stored; a value of this type is immutable, so the
      read-only accessors of the source are its field selectors. */
  datatype UniverseConstants = UniverseConstants(dtMin: real, minimumEntropy: real, c: real)

  /** What construction guarantees of every constants value it hands out. */
  predicate Positive(k: UniverseConstants) {
    k.dtMin > 0.0 && k.minimumEntropy > 0.0 && k.c > 0.0
  }

  /** Constants that construction accepted. */
  type ValidConstants = k: UniverseConstants | Positive(k) witness UniverseConstants(1.0, 1.0, 1.0)

  /** The constructor: each argument defaults to 1.0 on its own, and the
      three positivity checks run in the source's order, so the first one
      that fails decides the error. */
  function New(dtMin: real := 1.0, minimumEntropy: real := 1.0, c: real := 1.0): (r: Result<ValidConstants>)
    ensures r.Success? <==> dtMin > 0.0 && minimumEntropy > 0.0 && c > 0.0
    ensures r.Success? ==>
      r.value.dtMin == dtMin && r.value.minimumEntropy == minimumEntropy && r.value.c == c
    ensures dtMin <= 0.0 ==> r == Failure(NonPositiveDtMin)
    ensures dtMin > 0.0 && minimumEntropy <= 0.0 ==> r == Failure(NonPositiveMinimumEntropy)
    ensures dtMin > 0.0 && minimumEntropy > 0.0 && c <= 0.0 ==> r == Failure(NonPositiveC)
  {
    if dtMin <= 0.0 then Failure(NonPositiveDtMin)
    else if minimumEntropy <= 0.0 then Failure(NonPositiveMinimumEntropy)
    else if c <= 0.0 then Failure(NonPositiveC)
    else Success(UniverseConstants(dtMin, minimumEntropy, c))
  }

  /** The constructor called with every argument omitted succeeds with all
      three constants equal to 1.0. */
  lemma DefaultConstants()
    ensures New().Success?
    ensures New().value == UniverseConstants(1.0, 1.0, 1.0)
  {
  }

  /** Maximum number of transitions per unit time: the rate times the
      minimum duration gives back `c`, and the rate is strictly positive. */
  function MaxCompositionRate(k: ValidConstants): (r: real)
    ensures r > 0.0
    ensures r * k.dtMin == k.c
  {
    k.c / k.dtMin
  }

  /** dt_min = 2 and c = 10 give a maximum rate of 5. */
  lemma MaxRateExample()
    ensures New(dtMin := 2.0, c := 10.0).Success?
    ensures MaxCompositionRate(New(dtMin := 2.0, c := 10.0).value) == 5.0
  {
  }
}

=== FILE: direct_universe.dfy ===
/** The direct-mode universe: a registry of validated transitions with
    causal-order assignment, pairwise and chain composition, evolution of a
    state through a list of transitions, and the duration, entropy and rate
    queries over such lists, together with the laws relating chain
    composition to evolution. */
module DirectUniverse {
  import opened Outcomes
  import opened Constants
  import opened Transitions

  /** The universe's state: its constants, the registry in insertion order
      and the current-state cursor (None before anything sets it). */
  datatype Universe<!S> = Universe(
    constants: ValidConstants,
    transitions: seq<Transition<S>>,
    currentState: Option<S>)

  /** A new universe; omitted constants become the default constants. */
  function NewUniverse<S>(constants: Option<ValidConstants>): (r: Universe<S>)
    ensures r.transitions == [] && r.currentState == None
    ensures constants.Some? ==> r.constants == constants.value
    ensures constants.None? ==> r.constants == UniverseConstants(1.0, 1.0, 1.0)
  {
    var k := if constants.Some? then constants.value else Constants.New().value;
    Universe(k, [], None)
  }

  /** The registry invariant `add_transition` maintains: every registered
      transition satisfies the axioms and carries its 1-based position as
      its causal order. */
  predicate WellFormedRegistry<S>(u: Universe<S>) {
    forall i :: 0 <= i < |u.transitions| ==>
      SatisfiesAxioms(u.transitions[i], u.constants) && u.transitions[i].causalOrder == i + 1
  }

  /** The outcome of `add_transition`: the universe afterwards, the caller's
      transition as it is left, and the error raised, if any. */
  datatype Added<!S> = Added(universe: Universe<S>, transition: Transition<S>, error: Option<Error>)

  /** `add_transition`: validate first; on failure the registry is untouched
      (though the transition keeps its resolved entropy); on success append it
      and give it the new registry length as causal order. */
  function AddTransition<S>(u: Universe<S>, t: Transition<S>): (r: Added<S>)
    ensures r.error == Validate(t, u.constants).error
    ensures r.universe.constants == u.constants && r.universe.currentState == u.currentState
    ensures r.transition.transform == t.transform && r.transition.duration == t.duration
    ensures r.transition.name == t.name
    ensures r.transition.entropy == Some(ResolvedEntropy(t, u.constants))
    ensures r.error.Some? ==> r.universe == u && r.transition.causalOrder == t.causalOrder
    ensures r.error.None? ==>
      && r.universe.transitions == u.transitions + [r.transition]
      && r.transition.causalOrder == |u.transitions| + 1
      && SatisfiesAxioms(r.transition, u.constants)
  {
    var v := Validate(t, u.constants);
    if v.error.Some? then Added(u, v.transition, v.error)
    else
      var t' := SetCausalOrder(v.transition, |u.transitions| + 1);
      Added(u.(transitions := u.transitions + [t']), t', None)
  }

  /** `add_transition` preserves the registry invariant. */
  lemma AddTransitionPreservesRegistry<S>(u: Universe<S>, t: Transition<S>)
    requires WellFormedRegistry(u)
    ensures WellFormedRegistry(AddTransition(u, t).universe)
  {
  }

  /** `create_transition`: construct, then add. */
  function CreateTransition<S>(u: Universe<S>, f: S -> S, duration: real, entropy: Option<real>,
                               name: Option<string>, generated: string): (r: Added<S>)
    ensures r.error.None? <==>
      duration >= u.constants.dtMin && (entropy.None? || entropy.value >= u.constants.minimumEntropy)
    ensures r.error.None? ==> r.universe.transitions == u.transitions + [r.transition]
    ensures r.error.Some? ==> r.universe == u
    ensures r.transition.transform == f && r.transition.duration == duration
    ensures entropy.None? ==> r.transition.entropy == Some(u.constants.minimumEntropy)
    ensures entropy.Some? ==> r.transition.entropy == entropy
    ensures name.Some? && name.value != "" ==> r.transition.name == name.value
    ensures r.error.None? ==> r.transition.causalOrder == |u.transitions| + 1
  {
    AddTransition(u, Transitions.New(f, duration, entropy, name, generated))
  }

  /** `Universe.compose`: a missing second operand is rejected, otherwise
      the pairwise composition decides. */
  function Compose<S(!new)>(u: Universe<S>, t1: Transition<S>, t2: Option<Transition<S>>): (r: Result<Transition<S>>)
    ensures t2.None? ==> r == Failure(NotComposable)
    ensures t2.Some? ==> r == Transitions.Compose(t1, t2.value, u.constants)
  {
    if !IsComposableWith(t1, t2) then Failure(NotComposable)
    else Transitions.Compose(t1, t2.value, u.constants)
  }

  /** Left fold of pairwise composition, starting from `acc`; the first
      rejected step aborts the fold. */
  function FoldCompose<S(!new)>(acc: Transition<S>, rest: seq<Transition<S>>, k: ValidConstants): Result<Transition<S>>
    decreases |rest|
  {
    if rest == [] then Success(acc)
    else
      var c :- Transitions.Compose(acc, rest[0], k);
      FoldCompose(c, rest[1..], k)
  }

  /** `compose_chain`: an empty chain is an error, a singleton is returned
      unchanged, a longer chain is composed left to right. */
  function ComposeChain<S(!new)>(k: ValidConstants, ts: seq<Transition<S>>): (r: Result<Transition<S>>)
    ensures ts == [] ==> r == Failure(EmptyChain)
    ensures |ts| == 1 ==> r == Success(ts[0])
  {
    if ts == [] then Failure(EmptyChain)
    else if |ts| == 1 then Success(ts[0])
    else FoldCompose(ts[0], ts[1..], k)
  }

  /** The state reached by applying the transitions in order from `s`. */
  function FoldApply<S>(s: S, ts: seq<Transition<S>>): S
    decreases |ts|
  {
    if ts == [] then s else FoldApply(Apply(ts[0], s), ts[1..])
  }

  /** `evolve`: apply each transition in order, keeping the cursor on the
      running state; the universe is otherwise unchanged. */
  method Evolve<S(!new)>(u: Universe<S>, s: S, ts: seq<Transition<S>>) returns (r: S, u': Universe<S>)
    ensures r == FoldApply(s, ts)
    ensures ts == [] ==> r == s
    ensures ComposeChain(u.constants, ts).Success? ==> r == Apply(ComposeChain(u.constants, ts).value, s)
    ensures u'.currentState == Some(r)
    ensures u'.constants == u.constants && u'.transitions == u.transitions
  {
    var state := s;
    u' := u.(currentState := Some(state));
    var i := 0;
    while i < |ts|
      invariant 0 <= i <= |ts|
      invariant FoldApply(state, ts[i..]) == FoldApply(s, ts)
      invariant u' == u.(currentState := Some(state))
    {
      assert ts[i..][1..] == ts[i + 1..];
      state := Apply(ts[i], state);
      u' := u'.(currentState := Some(state));
      i := i + 1;
    }
    r := state;
    if ComposeChain(u.constants, ts).Success? {
      EvolveMatchesChain(u.constants, ts, s);
    }
  }

  /** `total_evolution_duration`: the sum of the durations; an empty list
      lasts 0 and a single transition lasts its own duration. */
  function TotalDuration<S>(ts: seq<Transition<S>>): (r: real)
    ensures ts == [] ==> r == 0.0
    ensures |ts| == 1 ==> r == ts[0].duration
    decreases |ts|
  {
    if ts == [] then 0.0 else ts[0].duration + TotalDuration(ts[1..])
  }

  /** `total_entropy`: the sum of the entropies, failing exactly when some
      entropy was never resolved. */
  function TotalEntropy<S>(ts: seq<Transition<S>>): (r: Result<real>)
    ensures r.Failure? <==> exists i :: 0 <= i < |ts| && ts[i].entropy.None?
    ensures r.Failure? ==> r.error == UnresolvedEntropy
    ensures ts == [] ==> r == Success(0.0)
    ensures |ts| == 1 && ts[0].entropy.Some? ==> r == Success(ts[0].entropy.value)
    decreases |ts|
  {
    if ts == [] then Success(0.0)
    else if ts[0].entropy.None? then Failure(UnresolvedEntropy)
    else
      var rest :- TotalEntropy(ts[1..]);
      Success(ts[0].entropy.value + rest)
  }

  /** `is_causal_rate_valid`: an empty list is valid; otherwise the total
      duration must reach the count divided by the maximum rate. */
  function IsCausalRateValid<S>(k: ValidConstants, ts: seq<Transition<S>>): (r: bool)
    ensures ts == [] ==> r
    ensures r <==> TotalDuration(ts) * MaxCompositionRate(k) >= |ts| as real
  {
    if ts == [] then true
    else
      var m := MaxCompositionRate(k);
      var need := |ts| as real / m;
      assert need * m == |ts| as real;
      var d := TotalDuration(ts);
      if d >= need then
        assert d * m >= need * m;
        true
      else
        assert d * m < need * m;
        false
  }

  /** `get_state`: the cursor; `None` before anything sets it. */
  function GetState<S>(u: Universe<S>): Option<S> {
    u.currentState
  }

  /** `set_state`: moves the cursor and nothing else. */
  function SetState<S>(u: Universe<S>, s: S): (r: Universe<S>)
    ensures GetState(r) == Some(s)
    ensures r.constants == u.constants && r.transitions == u.transitions
  {
    u.(currentState := Some(s))
  }

  // Laws relating chain composition to evolution and to the list queries.

  /** With non-negative durations, the total is non-negative and at least
      the duration of every member. */
  lemma {:induction false} TotalDurationDominates<S>(ts: seq<Transition<S>>)
    requires forall i :: 0 <= i < |ts| ==> ts[i].duration >= 0.0
    ensures TotalDuration(ts) >= 0.0
    ensures forall i :: 0 <= i < |ts| ==> TotalDuration(ts) >= ts[i].duration
    decreases |ts|
  {
    if ts != [] {
      var rest := ts[1..];
      assert forall i :: 0 <= i < |rest| ==> rest[i] == ts[i + 1];
      TotalDurationDominates(rest);
    }
  }

  /** Entropies add up across concatenation: the total of `a + b` exists
      exactly when both parts' totals do, and is then their sum. */
  lemma {:induction false} TotalEntropyAppend<S>(a: seq<Transition<S>>, b: seq<Transition<S>>)
    ensures TotalEntropy(a + b).Success? <==> TotalEntropy(a).Success? && TotalEntropy(b).Success?
    ensures TotalEntropy(a + b).Success? ==>
      TotalEntropy(a + b).value == TotalEntropy(a).value + TotalEntropy(b).value
    decreases |a|
  {
    if a == [] {
      assert a + b == b;
    } else {
      assert (a + b)[1..] == a[1..] + b;
      TotalEntropyAppend(a[1..], b);
    }
  }

  /** The fold succeeds exactly when every step's rate check passes: the
      accumulator's duration plus that of each non-empty prefix of the rest
      reaches the two-transition minimum. */
  lemma {:induction false} FoldComposeSucceeds<S(!new)>(acc: Transition<S>, rest: seq<Transition<S>>, k: ValidConstants)
    ensures FoldCompose(acc, rest, k).Success? <==>
      forall n :: 1 <= n <= |rest| ==> acc.duration + TotalDuration(rest[..n]) >= MinPairDuration(k)
    decreases |rest|
  {
    if rest != [] {
      assert rest[..1] == [rest[0]];
      var c := Transitions.Compose(acc, rest[0], k);
      if c.Success? {
        var tail := rest[1..];
        FoldComposeSucceeds(c.value, tail, k);
        forall n | 2 <= n <= |rest|
          ensures TotalDuration(rest[..n]) == rest[0].duration + TotalDuration(tail[..n - 1])
        {
          assert rest[..n] == [rest[0]] + tail[..n - 1];
          TotalDurationAppend([rest[0]], tail[..n - 1]);
        }
        if forall n :: 1 <= n <= |rest| ==> acc.duration + TotalDuration(rest[..n]) >= MinPairDuration(k) {
          forall m | 1 <= m <= |tail|
            ensures c.value.duration + TotalDuration(tail[..m]) >= MinPairDuration(k)
          {
            assert acc.duration + TotalDuration(rest[..m + 1]) >= MinPairDuration(k);
          }
        } else {
          var n :| 1 <= n <= |rest| && acc.duration + TotalDuration(rest[..n]) < MinPairDuration(k);
          assert c.value.duration + TotalDuration(tail[..n - 1]) < MinPairDuration(k);
        }
      }
    }
  }

  /** A chain of validated transitions always composes when `c` is at least
      1: every step then lasts at least two minimum durations, which is the
      two-transition minimum or more. */
  lemma ValidatedChainComposes<S(!new)>(k: ValidConstants, ts: seq<Transition<S>>)
    requires ts != []
    requires k.c >= 1.0
    requires forall i :: 0 <= i < |ts| ==> SatisfiesAxioms(ts[i], k)
    ensures ComposeChain(k, ts).Success?
  {
    if |ts| > 1 {
      var rest := ts[1..];
      assert MinPairDuration(k) <= 2.0 * k.dtMin by {
        var m := MaxCompositionRate(k);
        var p := 2.0 / m;
        assert p * m == 2.0;
        assert 2.0 * k.dtMin * m == 2.0 * k.c;
      }
      forall n | 1 <= n <= |rest|
        ensures ts[0].duration + TotalDuration(rest[..n]) >= MinPairDuration(k)
      {
        assert forall i :: 0 <= i < |rest[..n]| ==> rest[..n][i] == ts[i + 1];
        TotalDurationLowerBound(k, rest[..n]);
        assert n as real * k.dtMin >= k.dtMin;
      }
      FoldComposeSucceeds(ts[0], rest, k);
    }
  }

  /** Durations add up across concatenation. */
  lemma {:induction false} TotalDurationAppend<S>(a: seq<Transition<S>>, b: seq<Transition<S>>)
    ensures TotalDuration(a + b) == TotalDuration(a) + TotalDuration(b)
    decreases |a|
  {
    if a == [] {
      assert a + b == b;
    } else {
      assert (a + b)[1..] == a[1..] + b;
      TotalDurationAppend(a[1..], b);
    }
  }

  /** A list of validated transitions lasts at least `dt_min` per member. */
  lemma {:induction false} TotalDurationLowerBound<S>(k: ValidConstants, ts: seq<Transition<S>>)
    requires forall i :: 0 <= i < |ts| ==> SatisfiesAxioms(ts[i], k)
    ensures TotalDuration(ts) >= |ts| as real * k.dtMin
    decreases |ts|
  {
    if ts != [] {
      assert forall i :: 0 <= i < |ts[1..]| ==> ts[1..][i] == ts[i + 1];
      TotalDurationLowerBound(k, ts[1..]);
    }
  }

  /** A successful left fold of compositions from `acc` over `rest` runs
      `acc` and then every member of `rest`, in order. */
  lemma {:induction false} FoldComposeRuns<S(!new)>(acc: Transition<S>, rest: seq<Transition<S>>,
                                                    k: ValidConstants, s: S)
    requires FoldCompose(acc, rest, k).Success?
    ensures Apply(FoldCompose(acc, rest, k).value, s) == FoldApply(Apply(acc, s), rest)
    decreases |rest|
  {
    if rest != [] {
      var c := Transitions.Compose(acc, rest[0], k).value;
      assert FoldCompose(acc, rest, k) == FoldCompose(c, rest[1..], k);
      FoldComposeRuns(c, rest[1..], k, s);
      assert Apply(c, s) == Apply(rest[0], Apply(acc, s));
    }
  }

  /** A successful left fold of compositions lasts as long as all its
      members, carries their summed entropy when every one is resolved (and
      no entropy otherwise), and sits causally after all of them. */
  lemma {:induction false} FoldComposeLaw<S(!new)>(acc: Transition<S>, rest: seq<Transition<S>>, k: ValidConstants)
    requires FoldCompose(acc, rest, k).Success?
    ensures FoldCompose(acc, rest, k).value.duration == acc.duration + TotalDuration(rest)
    ensures acc.entropy.Some? && TotalEntropy(rest).Success? ==>
      FoldCompose(acc, rest, k).value.entropy == Some(acc.entropy.value + TotalEntropy(rest).value)
    ensures acc.entropy.None? || TotalEntropy(rest).Failure? ==> FoldCompose(acc, rest, k).value.entropy.None?
    ensures FoldCompose(acc, rest, k).value.causalOrder >= acc.causalOrder + |rest|
    ensures forall i :: 0 <= i < |rest| ==> FoldCompose(acc, rest, k).value.causalOrder > rest[i].causalOrder
    decreases |rest|
  {
    if rest != [] {
      var c := Transitions.Compose(acc, rest[0], k).value;
      assert FoldCompose(acc, rest, k) == FoldCompose(c, rest[1..], k);
      FoldComposeLaw(c, rest[1..], k);
      var r := FoldCompose(acc, rest, k).value;
      forall i | 0 <= i < |rest|
        ensures r.causalOrder > rest[i].causalOrder
      {
        if i > 0 {
          assert rest[i] == rest[1..][i - 1];
        }
      }
    }
  }

  /** The equivalence law: for a list on which `compose_chain` succeeds
      (necessarily non-empty), applying the chain to `s` gives the state
      `evolve` reaches from `s`. */
  lemma EvolveMatchesChain<S(!new)>(k: ValidConstants, ts: seq<Transition<S>>, s: S)
    requires ComposeChain(k, ts).Success?
    ensures ts != []
    ensures Apply(ComposeChain(k, ts).value, s) == FoldApply(s, ts)
  {
    FoldComposeRuns(ts[0], ts[1..], k, s);
    assert FoldCompose(ts[0], ts[1..], k) == ComposeChain(k, ts);
  }

  /** A chain that composes lasts exactly the total evolution duration, and
      its entropy is the total entropy, or absent exactly when that fails. */
  lemma ChainTotals<S(!new)>(k: ValidConstants, ts: seq<Transition<S>>)
    requires ComposeChain(k, ts).Success?
    ensures ComposeChain(k, ts).value.duration == TotalDuration(ts)
    ensures TotalEntropy(ts).Success? ==> ComposeChain(k, ts).value.entropy == Some(TotalEntropy(ts).value)
    ensures TotalEntropy(ts).Failure? ==> ComposeChain(k, ts).value.entropy.None?
  {
    FoldComposeLaw(ts[0], ts[1..], k);
    assert FoldCompose(ts[0], ts[1..], k) == ComposeChain(k, ts);
  }

  /** Every transition of a chain of two or more precedes the composite in
      causal order. */
  lemma ChainIsCausallyLater<S(!new)>(k: ValidConstants, ts: seq<Transition<S>>)
    requires |ts| >= 2 && ComposeChain(k, ts).Success?
    ensures forall i :: 0 <= i < |ts| ==> ComposeChain(k, ts).value.causalOrder > ts[i].causalOrder
    ensures ComposeChain(k, ts).value.causalOrder >= ts[0].causalOrder + |ts| - 1
  {
    FoldComposeLaw(ts[0], ts[1..], k);
    forall i | 1 <= i < |ts|
      ensures ComposeChain(k, ts).value.causalOrder > ts[i].causalOrder
    {
      assert ts[i] == ts[1..][i - 1];
    }
  }

  /** A chain of two or more can only fail on the rate bound. */
  lemma {:induction false} FoldComposeFailure<S(!new)>(acc: Transition<S>, rest: seq<Transition<S>>, k: ValidConstants)
    requires FoldCompose(acc, rest, k).Failure?
    ensures FoldCompose(acc, rest, k).error == CausalRateViolation
    decreases |rest|
  {
    match Transitions.Compose(acc, rest[0], k)
    case Failure(e) =>
    case Success(c) => FoldComposeFailure(c, rest[1..], k);
  }

  /** Composing a chain of two is composing the pair. */
  lemma ChainOfTwo<S(!new)>(k: ValidConstants, a: Transition<S>, b: Transition<S>)
    ensures ComposeChain(k, [a, b]) == Transitions.Compose(a, b, k)
  {
    assert [a, b][1..] == [b];
    var r := Transitions.Compose(a, b, k);
    if r.Success? {
      assert FoldCompose(r.value, [b][1..], k) == Success(r.value);
    }
  }
}

=== FILE: outcomes.dfy ===
/** Failure-carrying results and the error kinds the universe raises.

    The source signals every failure with a Python exception. Each raise site
    becomes one `Error` constructor here, and `IsValueError` says which of them
    the source raises as a `ValueError` (the only class the batch commit of
    the aggregate-mode universe swallows).
 */
module Outcomes {

  /** An optional value; stands for Python's `None` versus a present value. */
  datatype Option<+T> = None | Some(value: T)

  /** Either a value or the error that the source would raise instead. */
  datatype Result<+T> = Success(value: T) | Failure(error: Error) {
    predicate IsFailure() {
      Failure?
    }

    function PropagateFailure<U>(): Result<U>
      requires Failure?
    {
      Failure(error)
    }

    function Extract(): T
      requires Success?
    {
      value
    }
  }

  datatype Error =
    | NonPositiveDtMin             // constants.py: dt_min <= 0
    | NonPositiveMinimumEntropy    // constants.py: minimum_entropy <= 0
    | NonPositiveC                 // constants.py: c <= 0
    | BelowMinimumDuration         // Transition.validate, Axiom 2
    | BelowMinimumEntropy          // Transition.validate, Axiom 3
    | CausalRateViolation          // Transition.compose, Axiom 5
    | NotComposable                // Universe.compose with a missing operand
    | EmptyChain                   // Universe.compose_chain([])
    | UnresolvedEntropy            // Universe.total_entropy over a None entropy
    | CausalInconsistency          // CausalGraph.validate on a cyclic graph
    | RuleValueError(code: int)    // a decision rule raised a ValueError
    | RuleOtherError(code: int)    // a decision rule raised anything else

  /** The errors the source raises as `ValueError`.  `total_entropy` raises a
      `TypeError`; `Universe.compose` with a missing operand formats the
      operand's name into its message and so fails with an `AttributeError`
      before its `ValueError` is built. */
  predicate IsValueError(e: Error) {
    !(e.UnresolvedEntropy? || e.NotComposable? || e.RuleOtherError?)
  }
}

=== FILE: potential_transition.dfy ===
/** A potential transition: a latent state and a set of candidate outcomes,
    merged by set union and resolved to one unvalidated transition by a
    caller-supplied decision rule.

    Candidates are opaque objects compared by identity, so they are a type
    parameter `P`; `view` reads the transform, duration and entropy
    attributes the source takes from the selected candidate. */
module Potentials {
  import opened Outcomes
  import opened Transitions

  /** The attributes read from a selected candidate. */
  datatype Possibility<!S> = Possibility(transform: S -> S, duration: real, entropy: Option<real>)

  datatype PotentialTransition<S, P(==)> = PotentialTransition(state: S, possibilities: set<P>)

  /** `aggregate`: the union of both candidate sets, kept at this operand's
      state; the other operand's state is not consulted. */
  function Aggregate<S, P(==)>(p: PotentialTransition<S, P>, q: PotentialTransition<S, P>): (r: PotentialTransition<S, P>)
    ensures r.state == p.state
    ensures r.possibilities == p.possibilities + q.possibilities
  {
    PotentialTransition(p.state, p.possibilities + q.possibilities)
  }

  lemma AggregateCommutes<S, P>(p: PotentialTransition<S, P>, q: PotentialTransition<S, P>)
    ensures Aggregate(p, q).possibilities == Aggregate(q, p).possibilities
  {
  }

  lemma AggregateAssociates<S, P>(p: PotentialTransition<S, P>, q: PotentialTransition<S, P>,
                                       o: PotentialTransition<S, P>)
    ensures Aggregate(Aggregate(p, q), o) == Aggregate(p, Aggregate(q, o))
  {
  }

  lemma AggregateIdempotent<S, P>(p: PotentialTransition<S, P>)
    ensures Aggregate(p, p) == p
  {
  }

  /** No state check: whatever state the other operand holds, the result is
      the same. */
  lemma AggregateIgnoresOtherState<S, P>(p: PotentialTransition<S, P>, q: PotentialTransition<S, P>, s: S)
    ensures Aggregate(p, q) == Aggregate(p, q.(state := s))
  {
  }

  /** `commit`: the decision rule picks a candidate (or raises, which
      propagates unchanged); its attributes become a fresh, unvalidated
      transition with causal order 0 and the generated default name. */
  function Commit<S, P(==)>(pt: PotentialTransition<S, P>, rule: set<P> -> Result<P>,
                            view: P -> Possibility<S>, generated: string): (r: Result<Transition<S>>)
    ensures rule(pt.possibilities).Failure? ==> r == Failure(rule(pt.possibilities).error)
    ensures rule(pt.possibilities).Success? ==>
      var chosen := view(rule(pt.possibilities).value);
      && r.Success?
      && r.value.transform == chosen.transform
      && r.value.duration == chosen.duration
      && r.value.entropy == chosen.entropy
      && r.value.causalOrder == 0
      && r.value.name == generated
  {
    var selected :- rule(pt.possibilities);
    var c := view(selected);
    Success(Transitions.New(c.transform, c.duration, c.entropy, None, generated))
  }
}

=== FILE: scenarios.dfy ===
/** Concrete scenarios over integer states, mirroring the repository's
    tests: constants dt_min = 1, minimum_entropy = 0.5, c = 10. */
module Scenarios {
  import opened Outcomes
  import opened Constants
  import opened Transitions
  import opened DirectUniverse

  function TestConstants(): ValidConstants {
    UniverseConstants(1.0, 0.5, 10.0)
  }

  function Inc(d: real, e: Option<real>): Transition<int> {
    Transitions.New((x: int) => x + 1, d, e, Some("Inc"), "")
  }

  function Double(d: real, e: Option<real>): Transition<int> {
    Transitions.New((x: int) => x * 2, d, e, Some("Double"), "")
  }

  function Square(d: real): Transition<int> {
    Transitions.New((x: int) => x * x, d, None, Some("Square"), "")
  }

  /** Composing "+1" with "*2", each of duration 1 and entropy 0.5: 5 goes
      to 12, the durations add to 2 and the entropies to 1. */
  lemma ComposeScenario()
    ensures Transitions.Compose(Inc(1.0, Some(0.5)), Double(1.0, Some(0.5)), TestConstants()).Success?
    ensures var c := Transitions.Compose(Inc(1.0, Some(0.5)), Double(1.0, Some(0.5)), TestConstants()).value;
      Apply(c, 5) == 12 && c.duration == 2.0 && c.entropy == Some(1.0) && c.name == "Inc >> Double"
  {
  }

  function ChainOfThree(): seq<Transition<int>> {
    [Inc(1.0, None), Double(1.0, None), Square(1.0)]
  }

  /** The chain "+1", "*2", "squared" composes. */
  lemma ChainScenarioComposes()
    ensures ComposeChain(TestConstants(), ChainOfThree()).Success?
  {
    var ts := ChainOfThree();
    var k := TestConstants();
    var c1 := Transitions.Compose(ts[0], ts[1], k);
    assert c1.Success?;
    var c2 := Transitions.Compose(c1.value, ts[2], k);
    assert c2.Success?;
    assert ts[1..][1..] == [ts[2]];
    assert FoldCompose(c1.value, [ts[2]], k) == FoldCompose(c2.value, [], k);
  }

  /** Evolving 5 through "+1", "*2", "squared" reaches 144. */
  lemma EvolveScenario()
    ensures FoldApply(5, ChainOfThree()) == 144
  {
    var ts := ChainOfThree();
    assert ts[1..][1..] == [ts[2]];
    assert FoldApply(5, ts) == FoldApply(6, ts[1..]);
    assert FoldApply(6, ts[1..]) == FoldApply(12, [ts[2]]);
    assert Apply(ts[2], 12) == 144;
    assert FoldApply(12, [ts[2]]) == FoldApply(144, []);
  }

  /** The composed chain applied to 5 gives the same 144. */
  lemma ChainScenario()
    ensures ComposeChain(TestConstants(), ChainOfThree()).Success?
    ensures Apply(ComposeChain(TestConstants(), ChainOfThree()).value, 5) == 144
  {
    ChainScenarioComposes();
    EvolveScenario();
    EvolveMatchesChain(TestConstants(), ChainOfThree(), 5);
  }

  /** Validation boundaries: too short fails on duration, too little entropy
      fails on entropy, a missing entropy resolves to the minimum. */
  lemma ValidateScenarios()
    ensures Validate(Inc(0.5, None), TestConstants()).error == Some(BelowMinimumDuration)
    ensures Validate(Inc(1.5, Some(0.1)), TestConstants()).error == Some(BelowMinimumEntropy)
    ensures Validate(Inc(1.5, None), TestConstants()).error == None
    ensures Validate(Inc(1.5, None), TestConstants()).transition.entropy == Some(0.5)
    ensures Validate(Inc(1.0, Some(0.5)), TestConstants()).error == None
  {
  }

  /** Ten transitions of duration 1 respect the rate bound of 10. */
  lemma RateScenario()
    ensures IsCausalRateValid(TestConstants(), seq(10, _ => Inc(1.0, Some(0.5))))
  {
    var ts := seq(10, _ => Inc(1.0, Some(0.5)));
    TotalDurationLowerBound(TestConstants(), ts);
  }

  /** A transition that leaves the state alone. */
  function Idle(d: real, e: Option<real>, name: string): Transition<int> {
    Transitions.New((x: int) => x, d, e, Some(name), "")
  }

  /** Evolving 5 through "+10" and "*3" reaches 45. */
  lemma EvolveTwoScenario()
    ensures FoldApply(5, [Transitions.New((x: int) => x + 10, 1.0, None, Some("Add10"), ""),
                          Transitions.New((x: int) => x * 3, 1.0, None, Some("Triple"), "")]) == 45
  {
  }

  /** Durations 1.5, 2.0 and 1.0 total 4.5. */
  lemma TotalDurationScenario()
    ensures TotalDuration([Idle(1.5, None, "T1"), Idle(2.0, None, "T2"), Idle(1.0, None, "T3")]) == 4.5
  {
    var ts := [Idle(1.5, None, "T1"), Idle(2.0, None, "T2"), Idle(1.0, None, "T3")];
    assert ts == [ts[0]] + [ts[1]] + [ts[2]];
    TotalDurationAppend([ts[0]] + [ts[1]], [ts[2]]);
    TotalDurationAppend([ts[0]], [ts[1]]);
  }

  /** Entropies 1.0, 2.0 and 1.5 total 4.5. */
  lemma TotalEntropyScenario()
    ensures TotalEntropy([Idle(1.0, Some(1.0), "T1"), Idle(1.0, Some(2.0), "T2"), Idle(1.0, Some(1.5), "T3")])
         == Success(4.5)
  {
    var ts := [Idle(1.0, Some(1.0), "T1"), Idle(1.0, Some(2.0), "T2"), Idle(1.0, Some(1.5), "T3")];
    assert ts == [ts[0]] + [ts[1]] + [ts[2]];
    TotalEntropyAppend([ts[0]] + [ts[1]], [ts[2]]);
    TotalEntropyAppend([ts[0]], [ts[1]]);
  }

  /** Three transitions of duration 1, with the entropy validation gives
      them, respect the rate bound of 10. */
  lemma RateOfThreeScenario()
    ensures IsCausalRateValid(TestConstants(), seq(3, i => Idle(1.0, Some(0.5), "T")))
  {
    var ts := seq(3, i => Idle(1.0, Some(0.5), "T"));
    TotalDurationLowerBound(TestConstants(), ts);
  }

  /** The workflow constants: dt_min = 0.5, minimum_entropy = 1, c = 20. */
  function WorkflowConstants(): ValidConstants {
    UniverseConstants(0.5, 1.0, 20.0)
  }

  /** "Increment" and then "Double", both created through the universe. */
  function WorkflowPair(): (Added<int>, Added<int>) {
    var u := NewUniverse<int>(Some(WorkflowConstants()));
    var a1 := CreateTransition(u, (x: int) => x + 1, 1.0, Some(1.5), Some("Increment"), "");
    var a2 := CreateTransition(a1.universe, (x: int) => x * 2, 0.5, Some(1.0), Some("Double"), "");
    (a1, a2)
  }

  /** Both creations succeed and get causal orders 1 and 2; the pair is
      rate-valid. */
  lemma WorkflowCreates()
    ensures Constants.New(dtMin := 0.5, minimumEntropy := 1.0, c := 20.0) == Success(WorkflowConstants())
    ensures WorkflowPair().0.error.None? && WorkflowPair().1.error.None?
    ensures WorkflowPair().0.transition.causalOrder == 1 && WorkflowPair().1.transition.causalOrder == 2
    ensures IsCausalRateValid(WorkflowConstants(), [WorkflowPair().0.transition, WorkflowPair().1.transition])
  {
    var (a1, a2) := WorkflowPair();
    assert TotalDuration([a1.transition, a2.transition]) == 1.5 by {
      TotalDurationAppend([a1.transition], [a2.transition]);
      assert [a1.transition, a2.transition] == [a1.transition] + [a2.transition];
    }
  }

  /** Composing the pair maps 5 to 12, lasts 1.5, carries entropy 2.5 and
      comes after both, at causal order 3. */
  lemma WorkflowScenario()
    ensures var (a1, a2) := WorkflowPair();
      var c := DirectUniverse.Compose(a2.universe, a1.transition, Some(a2.transition));
      && c.Success?
      && Apply(c.value, 5) == 12
      && c.value.duration == 1.5
      && c.value.entropy == Some(2.5)
      && c.value.causalOrder == 3
  {
    WorkflowCreates();
  }
}

=== FILE: transition.dfy ===
/** A transition: an opaque state transform with a duration, an optional
    entropy, a name and a causal order, validated against the constants and
    composable with another transition under the composition-rate bound. */
module Transitions {
  import opened Outcomes
  import opened Constants

  datatype Transition<!S> = Transition(
    transform: S -> S,
    duration: real,
    entropy: Option<real>,   // None until validation resolves it
    name: string,
    causalOrder: int)

  /** The constructor stores its arguments unchecked and starts the causal
      order at 0.  An absent or empty name falls back to `generated`, which
      stands for the identity-derived name the source builds. */
  function New<S>(f: S -> S, duration: real, entropy: Option<real>,
                  name: Option<string>, generated: string): (r: Transition<S>)
    ensures r.transform == f && r.duration == duration && r.entropy == entropy
    ensures r.causalOrder == 0
    ensures name.Some? && name.value != "" ==> r.name == name.value
    ensures name.None? || name.value == "" ==> r.name == generated
  {
    var n := if name.Some? && name.value != "" then name.value else generated;
    Transition(f, duration, entropy, n, 0)
  }

  /** Overwrites the causal order and nothing else. */
  function SetCausalOrder<S>(t: Transition<S>, order: int): (r: Transition<S>)
    ensures r.causalOrder == order
    ensures r.transform == t.transform && r.duration == t.duration
    ensures r.entropy == t.entropy && r.name == t.name
  {
    t.(causalOrder := order)
  }

  /** Applying a transition runs its transform; nothing is validated. */
  function Apply<S>(t: Transition<S>, s: S): S {
    t.transform(s)
  }

  /** The entropy the checks of `validate` see: a missing entropy becomes the
      minimum entropy. */
  function ResolvedEntropy<S>(t: Transition<S>, k: ValidConstants): real {
    if t.entropy.None? then k.minimumEntropy else t.entropy.value
  }

  /** The axioms a validated transition satisfies (Axioms 2 and 3), stated
      independently of how `Validate` checks them. */
  predicate SatisfiesAxioms<S>(t: Transition<S>, k: ValidConstants) {
    t.duration >= k.dtMin && t.entropy.Some? && t.entropy.value >= k.minimumEntropy
  }

  /** The outcome of `validate`: the transition as it is left (its entropy is
      resolved even when a check then fails) and the error raised, if any. */
  datatype Validation<!S> = Validation(transition: Transition<S>, error: Option<Error>)

  /** `validate`: resolve a missing entropy, then check the duration, then the
      entropy; both minima are inclusive. */
  function Validate<S>(t: Transition<S>, k: ValidConstants): (r: Validation<S>)
    ensures r.transition.entropy == Some(ResolvedEntropy(t, k))
    ensures t.entropy.None? ==> r.transition.entropy == Some(k.minimumEntropy)
    ensures r.transition.transform == t.transform && r.transition.duration == t.duration
    ensures r.transition.name == t.name && r.transition.causalOrder == t.causalOrder
    ensures r.error.None? <==> t.duration >= k.dtMin && ResolvedEntropy(t, k) >= k.minimumEntropy
    ensures t.duration < k.dtMin ==> r.error == Some(BelowMinimumDuration)
    ensures t.duration >= k.dtMin && ResolvedEntropy(t, k) < k.minimumEntropy ==>
      r.error == Some(BelowMinimumEntropy)
  {
    var t' := if t.entropy.None? then t.(entropy := Some(k.minimumEntropy)) else t;
    if t'.duration < k.dtMin then Validation(t', Some(BelowMinimumDuration))
    else if t'.entropy.value < k.minimumEntropy then Validation(t', Some(BelowMinimumEntropy))
    else Validation(t', None)
  }

  /** Validation succeeds exactly when the transition it leaves behind
      satisfies the axioms. */
  lemma ValidateMeansAxioms<S>(t: Transition<S>, k: ValidConstants)
    ensures Validate(t, k).error.None? <==> SatisfiesAxioms(Validate(t, k).transition, k)
  {
  }

  /** Re-validating against the same constants changes nothing and gives the
      same verdict: a resolved entropy stays resolved. */
  lemma ValidateIdempotent<S>(t: Transition<S>, k: ValidConstants)
    ensures Validate(Validate(t, k).transition, k) == Validate(t, k)
  {
  }

  /** The shortest total duration two composed transitions may have:
      `2 / max_composition_rate`. */
  function MinPairDuration(k: ValidConstants): real {
    2.0 / MaxCompositionRate(k)
  }

  /** `compose`: reject when the summed duration is below the two-transition
      rate bound, otherwise build the sequential composite. */
  function Compose<S(!new)>(t: Transition<S>, other: Transition<S>, k: ValidConstants): (r: Result<Transition<S>>)
    ensures r.Failure? <==> t.duration + other.duration < MinPairDuration(k)
    ensures r.Failure? ==> r.error == CausalRateViolation
    ensures r.Success? ==> forall s :: Apply(r.value, s) == Apply(other, Apply(t, s))
    ensures r.Success? ==> r.value.duration == t.duration + other.duration
    ensures r.Success? && t.entropy.Some? && other.entropy.Some? ==>
      r.value.entropy == Some(t.entropy.value + other.entropy.value)
    ensures r.Success? && (t.entropy.None? || other.entropy.None?) ==> r.value.entropy.None?
    ensures r.Success? ==> r.value.name == t.name + " >> " + other.name
    ensures r.Success? ==> r.value.causalOrder > t.causalOrder && r.value.causalOrder > other.causalOrder
    ensures r.Success? ==>
      r.value.causalOrder == t.causalOrder + 1 || r.value.causalOrder == other.causalOrder + 1
  {
    var composedDuration := t.duration + other.duration;
    if composedDuration < MinPairDuration(k) then Failure(CausalRateViolation)
    else
      var composedEntropy :=
        if t.entropy.Some? && other.entropy.Some? then Some(t.entropy.value + other.entropy.value) else None;
      var order := if t.causalOrder >= other.causalOrder then t.causalOrder else other.causalOrder;
      Success(Transition((s: S) => other.transform(t.transform(s)), composedDuration, composedEntropy,
                         t.name + " >> " + other.name, order + 1))
  }

  /** The rate bound of `compose`, restated without the division: the pair is
      accepted exactly when its duration times the maximum rate reaches 2. */
  lemma ComposeRateBound<S(!new)>(t: Transition<S>, other: Transition<S>, k: ValidConstants)
    ensures Compose(t, other, k).Success? <==>
      (t.duration + other.duration) * MaxCompositionRate(k) >= 2.0
  {
  }

  /** `is_composable_with`: false only for a missing operand. */
  predicate IsComposableWith<S>(t: Transition<S>, other: Option<Transition<S>>) {
    other.Some?
  }
}
